=== FILE: README.md ===
# Event scheduler state machine

A Dafny model of the single-page "Super Simple Event Scheduler". The whole
application is one React component, `App`. It keeps a list of events
`{id, title, date}`, a selected day of the month, a form with two draft fields
and an optional edit target, and it stores the list in the browser's local
storage. This project lifts the component's state and event handlers out of
the rendering code:

- `State` holds the component's six pieces of state. Each handler is a pure
  function from state to state: `Save`, `Edit`, `Delete`, `OpenAdd` (the Add
  Event button), `Cancel`, `SelectDay` (a day button) and `TypeTitle` /
  `PickDate` (the two inputs).
- `Visible` is the shown list (`filteredEvents`). `Calendar.DaysInMonth` is
  the day-button row and `Calendar.StyleOf` is each button's highlight.
- `Step`, `Enabled` and `Run` replay sequences of clicks. `Inv` states
  distinct ids, complete events, and a selected day of at least 1. It holds in
  every state an admissible run reaches from a mounted state whose loaded
  events have distinct ids and non-empty titles and dates (`MountedInv`,
  `RunKeepsInv`). The component does not validate what it loads, so a mounted
  state need not satisfy it.

The model follows the code's behaviour exactly:

- The filter reads an event's day as `parseInt(date.split("-")[2])`.
  `JsText` models both JavaScript operations as the language defines them:
  `split` with a one-character separator, and `parseInt` with white-space
  skipping, an optional sign, the `0x` prefix and the longest digit run.
  `NaN` is `None`.
- The filter tests the selected day for JavaScript truthiness (`IsTruthy`).
  The day-button highlight tests it with strict equality.
- `new Date(year, month + 1, 0).getDate()` is the length of the month. The
  constructor reads a year from 0 to 99 as 1900 plus that year, and
  `Calendar.MonthLength` models that too.

Two behaviours of the handlers are worth stating on their own:

- Cancel only hides the form; the drafts and the edit target stay
  (`FormButtonsKeepEvents`).
- No handler clears a selected day once a day button has been clicked
  (`SelectionSticks`).

Modules: `Wrappers` (Option), `Seqs` (order-preserving filter), `JsText`
(split, join, parseInt), `Events` (the event record and the delete, update and
day-filter operations), `Calendar` (month length, day list, highlight) and
`Scheduler` (state, handlers, runs, invariant).

## Model

| member | source | states |
|---|---|---|
| `Seqs.Filter` | mri/src/App.jsx:64-71 | `Array.prototype.filter` returns only elements that pass the test. It keeps every element that passes and is a sub-multiset of the input, so it is never longer. |
| `Seqs.FilterAppend` | mri/src/App.jsx:64-71 | Filtering keeps order: filtering `a + b` gives the filtered `a` followed by the filtered `b`. |
| `Seqs.FilterSingleton` | mri/src/App.jsx:64-71 | A one-element array keeps its element exactly when the test passes. With `FilterAppend`, this determines the result completely. |
| `Seqs.FilterKeepsAll` | mri/src/App.jsx:64-71 | When every element passes the test, the filter returns the input unchanged. |
| `Seqs.FilterIdempotent` | mri/src/App.jsx:64-71 | Filtering twice with the same test gives the same result as filtering once. |
| `Seqs.FilterShorter` | mri/src/App.jsx:64-71 | The result has the input's length if and only if every element passes the test. |
| `Seqs.FilterCommute` | mri/src/App.jsx:64-71 | Two filters applied in either order give the same result. |
| `JsText.Split` | mri/src/App.jsx:70 | `date.split("-")` returns at least one field, and no field contains the separator. |
| `JsText.JoinSplit` | mri/src/App.jsx:70 | Joining the fields of a split with the separator gives back the original string. |
| `JsText.SplitJoin` | mri/src/App.jsx:70 | Splitting a join of separator-free fields gives back those fields. |
| `JsText.SplitCount` | mri/src/App.jsx:70 | There is exactly one more field than there are separators. |
| `JsText.TrimStart` | mri/src/App.jsx:70 | `parseInt`'s white-space skip removes exactly a leading run of white space and stops at the first other character. |
| `JsText.DigitPrefix` | mri/src/App.jsx:70 | `parseInt` reads the longest prefix of digits valid in the radix. |
| `JsText.ParseDecimal` | mri/src/App.jsx:70 | `parseInt` reads a leading run of decimal digits as its value, whatever non-digit text follows. The exception is a lone `0` that the next character turns into a `0x` prefix. |
| `JsText.ParseDecimalRoundTrip` | mri/src/App.jsx:70 | `parseInt` of a natural number written in decimal returns that number. |
| `JsText.ParseIntSkipsSpace` | mri/src/App.jsx:70 | Leading white space does not change what `parseInt` reads. |
| `Events.DayOfDateString` | mri/src/App.jsx:124-128 | For a date in the date input's `yyyy-mm-dd` form, whatever year field it carries (zero-padded or longer, as long as it has no `-`), the day read back by `parseInt(date.split("-")[2])` is the day written into it. |
| `JsText.ParseInt` | mri/src/App.jsx:70 | `parseInt` of a string that is empty or all white space is `NaN`. A number is read only when the first non-space character is a decimal digit, or a sign followed by one. A negative result needs a leading `-`, and a leading `-` never gives a positive result. |
| `Events.DayOfMonth` | mri/src/App.jsx:70 | `parseInt(date.split("-")[2])`: a date with fewer than two `-` has no third field. It reads as `NaN` and never matches a selected day. |
| `Events.FilterKeepsDistinct` | mri/src/App.jsx:65 | Any filter of an event list with distinct ids still has distinct ids. |
| `Events.RemoveById` | mri/src/App.jsx:64-66 | Delete keeps exactly the events whose id differs from the argument and is never longer than the input. Deleting an absent id changes nothing. Distinct ids stay distinct. |
| `Events.RemoveByIdPieces` | mri/src/App.jsx:65 | Delete keeps order: it works piecewise on a concatenation, and a single event survives exactly when its id differs. |
| `Events.OnDay` | mri/src/App.jsx:69-71 | The day filter keeps exactly the stored events whose day field parses to the selected day. |
| `Events.OnDayPieces` | mri/src/App.jsx:70 | The day filter keeps order: it works piecewise on a concatenation, and a single event is kept exactly when its day matches. |
| `Events.RemoveOnDayCommute` | mri/src/App.jsx:64-71 | Deleting from the day-filtered list gives the same result as day-filtering the list after the delete. |
| `Events.ReviseById` | mri/src/App.jsx:39-43 | The update map keeps the length and every id in place. Events with the target id get the new title and date, and all other events are unchanged. |
| `Events.ReviseKeepsIds` | mri/src/App.jsx:39-43 | The update keeps the id sequence, so distinct ids stay distinct. When no event has the target id, the list is unchanged. |
| `Events.ReviseOne` | mri/src/App.jsx:40-42 | With distinct ids, updating the id at position k replaces exactly that one event. |
| `Calendar.MonthLength` | mri/src/App.jsx:25-28 | The month has between 28 and 31 days. It has 29 exactly for February of a leap year, as the Date constructor reads the year. |
| `Calendar.YearLength` | mri/src/App.jsx:28 | The twelve month lengths add up to 366 days in a leap year and 365 otherwise. |
| `Calendar.DaysInMonth` | mri/src/App.jsx:24-29 | `getDaysInMonth()` returns as many day numbers as the month has days. |
| `Calendar.DaysInMonthShape` | mri/src/App.jsx:29 | The day list starts at 1, ends at the month length and is strictly increasing. It contains exactly the days 1..N. |
| `Calendar.StyleOf` | mri/src/App.jsx:84-90 | The selected day always gets the selected style, whatever events exist. Any other day is marked as having events exactly when the day filter for it is non-empty, and is plain otherwise. |
| `Scheduler.IsTruthy` | mri/src/App.jsx:69 | The selection is falsy exactly when it is the initial empty string or the number 0. |
| `Scheduler.Mounted` | mri/src/App.jsx:6-16 | After loading, the form is closed with no target and empty drafts, nothing is selected, and every loaded event is shown. |
| `Scheduler.Visible` | mri/src/App.jsx:69-71 | With no truthy selection, the shown list is every stored event. With a selected day, it holds exactly the stored events on that day. |
| `Scheduler.Save` | mri/src/App.jsx:33-53 | An empty title or date changes nothing. Otherwise the target, drafts and form are reset and the selection is kept. With no target, the new event `{freshId, title, date}` is appended after an unchanged prefix. With a target, the length and ids are kept and only events with the target's id get the draft title and date. |
| `Scheduler.Edit` | mri/src/App.jsx:56-61 | Edit opens the form with the chosen event as the target and its title and date as the drafts. The events and the selection are kept. |
| `Scheduler.Delete` | mri/src/App.jsx:64-66 | Delete changes only the event list, which becomes the delete of `Events.RemoveById`. |
| `Scheduler.OpenAdd` | mri/src/App.jsx:100-105 | Add Event opens an empty form with no target and keeps the events and the selection. |
| `Scheduler.Cancel` | mri/src/App.jsx:138 | Cancel hides the form and changes nothing else. |
| `Scheduler.SelectDay` | mri/src/App.jsx:91 | A day click selects that day and changes nothing else. |
| `Scheduler.TypeTitle` | mri/src/App.jsx:121 | Typing sets the title draft and changes nothing else. |
| `Scheduler.PickDate` | mri/src/App.jsx:127 | Picking a date sets the date draft and changes nothing else. |
| `Scheduler.Step` | mri/src/App.jsx:91-168 | Of the wired handlers, only Delete and Submit write the event list. Delete never lengthens it, and Submit adds at most one event. Only a day click writes the selection. |
| `Scheduler.Enabled` | mri/src/App.jsx:81-168 | A control is on screen only as rendered: a clickable day lies in 1..N, Edit and Delete name only stored events, and Submit and Cancel need the open form. |
| `Scheduler.SaveNew` | mri/src/App.jsx:45-49 | Saving a new event under an unused id keeps ids distinct and stores the new id. The shown list gains the new event at its end exactly when the event falls on the selected day, or when no day is selected. |
| `Scheduler.SaveStaleTarget` | mri/src/App.jsx:37-44 | When the edit target's id is no longer stored, saving leaves the events unchanged but still clears the target and closes the form. |
| `Scheduler.EditThenSaveUnchanged` | mri/src/App.jsx:37-61 | With distinct ids, opening a stored event for editing and saving the drafts unchanged leaves the events as they were. |
| `Scheduler.FormButtonsKeepEvents` | mri/src/App.jsx:100-138 | Add Event, Edit and Cancel leave the events and the shown list alone. Cancel keeps the target and drafts that Edit set. The next Add Event or Edit overwrites whatever Cancel left behind. |
| `Scheduler.DeleteThenShow` | mri/src/App.jsx:64-71 | The list shown after a delete equals the delete applied to the list shown before it. |
| `Scheduler.SelectionSticks` | mri/src/App.jsx:91 | No sequence of actions clears a selected day. |
| `Scheduler.SelectedIsTruthy` | mri/src/App.jsx:69 | In every state whose selected day, if any, is at least 1, the selection is truthy exactly when a day is selected. The shown list is then the day filter. |
| `Scheduler.RunKeepsSelection` | mri/src/App.jsx:81-91 | Day clicks store only rendered days, so every on-screen run keeps a selected day at 1 or above, whatever events are stored. |
| `Scheduler.MountedRunTruthy` | mri/src/App.jsx:69-91 | After mounting any stored events, valid or not, every on-screen run reaches states whose selection is truthy exactly when a day is selected, and whose shown list is then the day filter. |
| `Scheduler.MountedInv` | mri/src/App.jsx:13-16 | The state after loading satisfies the invariant exactly when the loaded events have distinct ids and non-empty titles and dates. |
| `Scheduler.DeleteKeepsInv` | mri/src/App.jsx:64-66 | Delete keeps the invariant. |
| `Scheduler.SaveKeepsInv` | mri/src/App.jsx:33-53 | Save keeps the invariant when the generated id is not already stored. |
| `Scheduler.StepKeepsInv` | mri/src/App.jsx:33-138 | Every action whose control is on screen keeps the invariant, given a fresh id for a save. |
| `Scheduler.RunKeepsInv` | mri/src/App.jsx:33-138 | Every state reached by on-screen actions with fresh ids, starting from a state that satisfies the invariant, satisfies it too. With `MountedInv`, that covers runs from any mount of events with distinct ids and non-empty titles and dates. |
| `Scheduler.AddThroughForm` | mri/src/App.jsx:100-128 | Add Event, typing a title, picking a date and submitting appends exactly that event. It leaves the form closed and empty and the selection unchanged. |
| `Scheduler.TwoAdds` | mri/src/App.jsx:45-48 | From an empty store, adding "Standup" and then "Review" on 2024-06-05 stores both, in that order. |
| `Scheduler.DayOfJune5` | mri/src/App.jsx:70 | The date "2024-06-05" reads as day 5. |
| `Scheduler.TwoEventsOnOneDay` | mri/src/App.jsx:69-71 | In that state, for any date on the 5th (such as "2024-06-05"), both events are shown, in insertion order, with no day selected and with day 5 selected. None is shown for day 6. |

## Left out

- The two storage effects (mri/src/App.jsx:13-21) and JSON encoding are browser I/O. `Mounted` takes the loaded events as a parameter, and the write-back after every change is not modelled.
- Stored events are taken to have exactly three string fields. Storage content of another shape (missing fields, non-string dates, extra fields kept by `{...ev}`) is not modelled.
- `uuidv4()` is a foreign call. Each save receives the generated id as `freshId`. That the id is not already stored is a premise of `SaveNew`, `SaveKeepsInv` and `Admissible`, not a requirement of `Save`.
- The browser clock is not modelled. The current year and month are parameters, and a run uses one month throughout, so a change of month while the page is open is not modelled. Time zones and the limits of the JavaScript date range are not modelled either.
- The `alert` on a rejected save is UI output. The model keeps only its effect, which is that the state stays unchanged.
- JSX rendering, CSS class strings, list keys and the "No events found." message are UI output. Of the rendering, only the highlight choice is kept, as `Calendar.StyleOf`.
- React's batching of the state updates in one handler is folded into a single transition function.
- `Scheduler.Save` is defined on every state. That the form must be open to submit it is expressed only by `Enabled`.
- JsText.ParseInt: returns the exact integer. JavaScript rounds a value above 2^53 to a double, which cannot change whether the value equals a day from 1 to 31.
- Strings are sequences of Unicode scalar values, not UTF-16 code units. This makes no difference for the characters that `parseInt` and `split` inspect.

=== FILE: calendar.dfy ===
/** The day-picker: the day numbers of the current month and the
    highlight each day button gets. The current year and month come from
    the browser's clock and are parameters here. */
module Calendar {
  import opened Wrappers
  import opened Events

  /** The selected day. The component starts with the empty string, which
      is falsy and equal to no number; clicking a day stores that number. */
  datatype Selection = NoDay | Day(day: int)

  /** `new Date(year, …)` reads a year from 0 to 99 as 1900 plus that year. */
  function ConstructorYear(year: int): int {
    if 0 <= year <= 99 then 1900 + year else year
  }

  /** The leap-year rule of the proleptic Gregorian calendar that
      JavaScript dates use. */
  predicate IsLeap(year: int) {
    year % 4 == 0 && (year % 100 != 0 || year % 400 == 0)
  }

  /** `new Date(year, month + 1, 0).getDate()` for a zero-based `month`: day 0
      of the following month is the last day of `month`, so this is the
      length of `month` in the constructor's reading of `year`. */
  function MonthLength(year: int, month: int): (n: int)
    requires 0 <= month < 12
    ensures 28 <= n <= 31
    ensures n == 29 <==> month == 1 && IsLeap(ConstructorYear(year))
  {
    if month == 1 then (if IsLeap(ConstructorYear(year)) then 29 else 28)
    else if month == 3 || month == 5 || month == 8 || month == 10 then 30
    else 31
  }

  /** The number of days in the first `months` months of `year`. */
  function DaysBefore(year: int, months: nat): int
    requires months <= 12
  {
    if months == 0 then 0 else DaysBefore(year, months - 1) + MonthLength(year, months - 1)
  }

  /** The month lengths add up to the length of the year: 366 days in a
      leap year and 365 otherwise. */
  lemma YearLength(year: int)
    ensures DaysBefore(year, 12) == if IsLeap(ConstructorYear(year)) then 366 else 365
  {
    assert DaysBefore(year, 1) == 31;
    assert DaysBefore(year, 2) == 31 + MonthLength(year, 1);
    assert DaysBefore(year, 3) == DaysBefore(year, 2) + 31;
    assert DaysBefore(year, 4) == DaysBefore(year, 3) + 30;
    assert DaysBefore(year, 6) == DaysBefore(year, 4) + 61;
    assert DaysBefore(year, 8) == DaysBefore(year, 6) + 62;
    assert DaysBefore(year, 10) == DaysBefore(year, 8) + 61;
  }

  /** `getDaysInMonth()`: the day numbers 1 to N of the month. */
  function DaysInMonth(year: int, month: int): (days: seq<int>)
    requires 0 <= month < 12
    ensures |days| == MonthLength(year, month)
  {
    seq(MonthLength(year, month), i => i + 1)
  }

  /** The day list counts up from 1 in steps of one to the month length:
      it is strictly increasing and holds exactly the days 1..N. */
  lemma DaysInMonthShape(year: int, month: int)
    requires 0 <= month < 12
    ensures var days := DaysInMonth(year, month);
      && days[0] == 1
      && days[|days| - 1] == MonthLength(year, month)
      && (forall i, j :: 0 <= i < j < |days| ==> days[i] < days[j])
      && (forall d :: d in days <==> 1 <= d <= MonthLength(year, month))
  {
    var days := DaysInMonth(year, month);
    forall d | 1 <= d <= MonthLength(year, month)
      ensures d in days
    {
      assert days[d - 1] == d;
    }
  }

  /** The three looks of a day button. */
  datatype DayStyle = SelectedStyle | EventStyle | PlainStyle

  /** There is an event on `day` exactly when the day filter for it is
      non-empty. */
  lemma SomeOnDay(evs: seq<Event>, day: int)
    ensures (exists i :: 0 <= i < |evs| && DayOfMonth(evs[i].date) == Some(day)) <==> |OnDay(evs, day)| > 0
  {
    var r := OnDay(evs, day);
    if |r| > 0 {
      var i :| 0 <= i < |evs| && evs[i] == r[0];
    }
    if exists i :: 0 <= i < |evs| && DayOfMonth(evs[i].date) == Some(day) {
      var i :| 0 <= i < |evs| && DayOfMonth(evs[i].date) == Some(day);
      assert evs[i] in r;
    }
  }

  /** The class choice of a day button: the selected day first, then a day
      with at least one event, otherwise plain. The test for "selected" is
      a strict equality, so `NoDay` selects no button. Selection takes
      precedence over events; otherwise a day is marked as having events
      exactly when the day filter for it is non-empty. */
  function StyleOf(selected: Selection, evs: seq<Event>, day: int): (r: DayStyle)
    ensures selected == Day(day) ==> r == SelectedStyle
    ensures selected != Day(day) ==> (r == EventStyle <==> |OnDay(evs, day)| > 0)
    ensures selected != Day(day) ==> (r == PlainStyle <==> OnDay(evs, day) == [])
  {
    SomeOnDay(evs, day);
    if selected == Day(day) then SelectedStyle
    else if exists i :: 0 <= i < |evs| && DayOfMonth(evs[i].date) == Some(day) then EventStyle
    else PlainStyle
  }
}

=== FILE: events.dfy ===
/** The event records the scheduler keeps, and the three operations the
    component performs on the event array: removing by id (delete),
    rewriting title and date by id (update), and selecting the events whose
    date falls on a given day of the month (the day filter). */
module Events {
  import opened Wrappers
  import Seqs
  import JsText

  /** Ids are opaque strings (UUIDs in the running application). */
  type Id = string

  datatype Event = Event(id: Id, title: string, date: string)

  /** The ids of `evs`, position by position. */
  function Ids(evs: seq<Event>): (ids: seq<Id>)
    ensures |ids| == |evs|
    ensures forall i :: 0 <= i < |evs| ==> ids[i] == evs[i].id
  {
    seq(|evs|, i requires 0 <= i < |evs| => evs[i].id)
  }

  /** No two positions hold events with the same id. */
  predicate DistinctIds(evs: seq<Event>) {
    forall i, j :: 0 <= i < |evs| && 0 <= j < |evs| && evs[i].id == evs[j].id ==> i == j
  }

  /** The save handler only ever stores events whose title and date are both
      non-empty. */
  predicate Complete(e: Event) {
    e.title != "" && e.date != ""
  }

  predicate AllComplete(evs: seq<Event>) {
    forall i :: 0 <= i < |evs| ==> Complete(evs[i])
  }

  // ---------------------------------------------------------------------
  // day of month

  /** `parseInt(date.split("-")[2])`: the third `-`-separated field read as
      an integer. A date with fewer than three fields reads `undefined`,
      which `parseInt` turns into `NaN` (`None`). */
  function DayOfMonth(date: string): (r: Option<int>)
    ensures multiset(date)['-'] < 2 ==> r == None
  {
    var fields := JsText.Split(date, '-');
    JsText.SplitCount(date, '-');
    if |fields| > 2 then JsText.ParseInt(fields[2]) else None
  }

  /** `n` as two decimal digits, with a leading zero below 10. */
  function TwoDigits(n: nat): (s: string)
    requires n < 100
    ensures |s| == 2
    ensures forall i :: 0 <= i < |s| ==> JsText.DigitValue(s[i]) < 10
  {
    [JsText.DigitChar(n / 10), JsText.DigitChar(n % 10)]
  }

  /** The `yyyy-mm-dd` value a date input produces. The year field is kept
      as text, since the input pads it to at least four digits. */
  function DateString(yyyy: string, month: nat, day: nat): string
    requires '-' !in yyyy
    requires month < 100 && day < 100
  {
    JsText.Join([yyyy, TwoDigits(month), TwoDigits(day)], '-')
  }

  /** A string of decimal digits contains no `-`. */
  lemma DigitsHaveNoDash(s: string)
    requires forall i :: 0 <= i < |s| ==> JsText.DigitValue(s[i]) < 10
    ensures '-' !in s
  {
  }

  /** A two-digit field reads back as its number. */
  lemma ParseTwoDigits(n: nat)
    requires n < 100
    ensures JsText.ParseInt(TwoDigits(n)) == Some(n)
  {
    var dd := TwoDigits(n);
    assert dd + [] == dd;
    JsText.ParseDecimal(dd, []);
    TwoDigitsValue(n);
  }

  /** Two decimal digits denote the number they were written from. */
  lemma TwoDigitsValue(n: nat)
    requires n < 100
    ensures JsText.Value(TwoDigits(n), 10) == n
  {
    var dd := TwoDigits(n);
    var hi := [dd[0]];
    assert dd[..1] == hi;
    assert hi[..0] == [];
    assert JsText.Value(hi, 10) == n / 10;
  }

  /** Reading the day back out of a `yyyy-mm-dd` date gives the day that was
      written into it. */
  lemma DayOfDateString(yyyy: string, month: nat, day: nat)
    requires '-' !in yyyy
    requires month < 100 && day < 100
    ensures DayOfMonth(DateString(yyyy, month, day)) == Some(day)
  {
    var fields := [yyyy, TwoDigits(month), TwoDigits(day)];
    DigitsHaveNoDash(fields[1]);
    DigitsHaveNoDash(fields[2]);
    JsText.SplitJoin(fields, '-');
    ParseTwoDigits(day);
  }

  // ---------------------------------------------------------------------
  // filtering

  /** The predicate of `ev.id !== id`. */
  function IdIsNot(id: Id): Event -> bool {
    (e: Event) => e.id != id
  }

  /** The predicate of `parseInt(ev.date.split("-")[2]) === day`. */
  function FallsOn(day: int): Event -> bool {
    (e: Event) => DayOfMonth(e.date) == Some(day)
  }

  /** Filtering keeps ids distinct, since it keeps a subsequence. */
  lemma {:induction false} FilterKeepsDistinct(evs: seq<Event>, p: Event -> bool)
    requires DistinctIds(evs)
    ensures DistinctIds(Seqs.Filter(evs, p))
    decreases |evs|
  {
    if |evs| > 0 {
      var rest := evs[1..];
      assert DistinctIds(rest) by {
        forall i, j | 0 <= i < |rest| && 0 <= j < |rest| && rest[i].id == rest[j].id
          ensures i == j
        {
          assert evs[i + 1].id == evs[j + 1].id;
        }
      }
      FilterKeepsDistinct(rest, p);
      var fr := Seqs.Filter(rest, p);
      if p(evs[0]) {
        forall k | 0 <= k < |fr|
          ensures fr[k].id != evs[0].id
        {
          var m :| 0 <= m < |rest| && rest[m] == fr[k];
          assert evs[m + 1] == fr[k];
        }
        var r := Seqs.Filter(evs, p);
        assert r == [evs[0]] + fr;
        forall i, j | 0 <= i < |r| && 0 <= j < |r| && r[i].id == r[j].id
          ensures i == j
        {
          if i > 0 && j > 0 {
            assert r[i] == fr[i - 1] && r[j] == fr[j - 1];
          }
        }
      }
    }
  }

  /** `events.filter((ev) => ev.id !== id)`: delete every event with id
      `id` and keep the rest in order. */
  function RemoveById(evs: seq<Event>, id: Id): (r: seq<Event>)
    ensures |r| <= |evs|
    ensures forall i :: 0 <= i < |r| ==> r[i].id != id && r[i] in evs
    ensures forall i :: 0 <= i < |evs| && evs[i].id != id ==> evs[i] in r
    ensures id !in Ids(evs) ==> r == evs
    ensures DistinctIds(evs) ==> DistinctIds(r)
  {
    RemoveByIdFacts(evs, id);
    Seqs.Filter(evs, IdIsNot(id))
  }

  /** The delete filter changes nothing when the id is absent and keeps
      distinct ids distinct. */
  lemma RemoveByIdFacts(evs: seq<Event>, id: Id)
    ensures id !in Ids(evs) ==> Seqs.Filter(evs, IdIsNot(id)) == evs
    ensures DistinctIds(evs) ==> DistinctIds(Seqs.Filter(evs, IdIsNot(id)))
  {
    if id !in Ids(evs) {
      forall i | 0 <= i < |evs| ensures IdIsNot(id)(evs[i]) {
        assert Ids(evs)[i] == evs[i].id;
      }
      Seqs.FilterKeepsAll(evs, IdIsNot(id));
    }
    if DistinctIds(evs) {
      FilterKeepsDistinct(evs, IdIsNot(id));
    }
  }

  /** The events whose date falls on `day`, in their original order. */
  function OnDay(evs: seq<Event>, day: int): (r: seq<Event>)
    ensures |r| <= |evs|
    ensures forall i :: 0 <= i < |r| ==> DayOfMonth(r[i].date) == Some(day) && r[i] in evs
    ensures forall i :: 0 <= i < |evs| && DayOfMonth(evs[i].date) == Some(day) ==> evs[i] in r
  {
    Seqs.Filter(evs, FallsOn(day))
  }

  /** Deleting is order preserving: it works piecewise on a concatenation,
      and a single event survives exactly when its id differs. */
  lemma RemoveByIdPieces(a: seq<Event>, b: seq<Event>, e: Event, id: Id)
    ensures RemoveById(a + b, id) == RemoveById(a, id) + RemoveById(b, id)
    ensures RemoveById([e], id) == if e.id != id then [e] else []
  {
    Seqs.FilterAppend(a, b, IdIsNot(id));
    Seqs.FilterSingleton(e, IdIsNot(id));
  }

  /** The day filter is order preserving: it works piecewise on a
      concatenation, and a single event is kept exactly when its date falls
      on the day. */
  lemma OnDayPieces(a: seq<Event>, b: seq<Event>, e: Event, day: int)
    ensures OnDay(a + b, day) == OnDay(a, day) + OnDay(b, day)
    ensures OnDay([e], day) == if DayOfMonth(e.date) == Some(day) then [e] else []
  {
    Seqs.FilterAppend(a, b, FallsOn(day));
    Seqs.FilterSingleton(e, FallsOn(day));
  }

  /** Deleting and filtering by day commute. */
  lemma RemoveOnDayCommute(evs: seq<Event>, id: Id, day: int)
    ensures RemoveById(OnDay(evs, day), id) == OnDay(RemoveById(evs, id), day)
  {
    Seqs.FilterCommute(evs, FallsOn(day), IdIsNot(id));
  }

  // ---------------------------------------------------------------------
  // update

  /** `events.map((ev) => ev.id === id ? { ...ev, title, date } : ev)`:
      rewrite title and date of every event with id `id`. */
  function ReviseById(evs: seq<Event>, id: Id, title: string, date: string): (r: seq<Event>)
    ensures |r| == |evs|
    ensures forall i :: 0 <= i < |evs| ==> r[i].id == evs[i].id
    ensures forall i :: 0 <= i < |evs| && evs[i].id == id ==> r[i].title == title && r[i].date == date
    ensures forall i :: 0 <= i < |evs| && evs[i].id != id ==> r[i] == evs[i]
    decreases |evs|
  {
    if |evs| == 0 then []
    else
      var head := if evs[0].id == id then evs[0].(title := title, date := date) else evs[0];
      [head] + ReviseById(evs[1..], id, title, date)
  }

  /** Updating keeps every id where it was, so it keeps ids distinct; when
      no event has the id, nothing changes. */
  lemma ReviseKeepsIds(evs: seq<Event>, id: Id, title: string, date: string)
    ensures Ids(ReviseById(evs, id, title, date)) == Ids(evs)
    ensures DistinctIds(evs) ==> DistinctIds(ReviseById(evs, id, title, date))
    ensures id !in Ids(evs) ==> ReviseById(evs, id, title, date) == evs
  {
    var r := ReviseById(evs, id, title, date);
    if id !in Ids(evs) {
      forall i | 0 <= i < |evs| ensures r[i] == evs[i] {
        assert Ids(evs)[i] == evs[i].id;
      }
    }
  }

  /** With distinct ids, updating an id that sits at position `k` replaces
      exactly that one event. */
  lemma ReviseOne(evs: seq<Event>, k: nat, title: string, date: string)
    requires DistinctIds(evs)
    requires k < |evs|
    ensures ReviseById(evs, evs[k].id, title, date) == evs[k := Event(evs[k].id, title, date)]
  {
  }
}

=== FILE: js_text.dfy ===
/** The two JavaScript string operations the scheduler applies to an event's
    date: `String.prototype.split` with a one-character separator and the
    global `parseInt` with no radix argument (section 19.2.5 of ECMA-262).
    Characters are Unicode scalar values; `NaN` is `None`. */
module JsText {
  import opened Wrappers

  // ---------------------------------------------------------------------
  // split / join

  /** `s.split(sep)`: the maximal runs between occurrences of `sep`. There is
      always at least one field, and the empty string splits to `[""]`. */
  function Split(s: string, sep: char): (r: seq<string>)
    ensures |r| >= 1
    ensures forall i :: 0 <= i < |r| ==> sep !in r[i]
    decreases |s|
  {
    if |s| == 0 then [""]
    else
      var rest := Split(s[1..], sep);
      if s[0] == sep then [""] + rest
      else [[s[0]] + rest[0]] + rest[1..]
  }

  /** There is one field more than there are separators. */
  lemma {:induction false} SplitCount(s: string, sep: char)
    ensures |Split(s, sep)| == multiset(s)[sep] + 1
    decreases |s|
  {
    if |s| > 0 {
      SplitCount(s[1..], sep);
      assert s == [s[0]] + s[1..];
    }
  }

  /** `fields.join(sep)` for a non-empty array of strings. */
  function Join(fields: seq<string>, sep: char): string
    requires |fields| >= 1
    decreases |fields|
  {
    if |fields| == 1 then fields[0]
    else fields[0] + [sep] + Join(fields[1..], sep)
  }

  /** Splitting loses nothing: joining the fields back gives the input. */
  lemma {:induction false} JoinSplit(s: string, sep: char)
    ensures Join(Split(s, sep), sep) == s
    decreases |s|
  {
    if |s| > 0 {
      var rest := Split(s[1..], sep);
      JoinSplit(s[1..], sep);
      if s[0] == sep {
        assert ([""] + rest)[1..] == rest;
      } else if |rest| == 1 {
        assert Join(Split(s, sep), sep) == [s[0]] + rest[0];
      } else {
        var r := Split(s, sep);
        assert r[1..] == rest[1..];
        assert Join(rest, sep) == rest[0] + [sep] + Join(rest[1..], sep);
      }
    }
  }

  /** A field free of `sep` followed by `sep` is split off as one field. */
  lemma {:induction false} SplitField(f: string, t: string, sep: char)
    requires sep !in f
    ensures Split(f + [sep] + t, sep) == [f] + Split(t, sep)
    decreases |f|
  {
    if |f| == 0 {
      assert (f + [sep] + t)[1..] == t;
    } else {
      assert (f + [sep] + t)[1..] == f[1..] + [sep] + t;
      SplitField(f[1..], t, sep);
      assert [f[0]] + f[1..] == f;
    }
  }

  /** A string free of `sep` splits to itself alone. */
  lemma {:induction false} SplitWhole(f: string, sep: char)
    requires sep !in f
    ensures Split(f, sep) == [f]
    decreases |f|
  {
    if |f| > 0 {
      SplitWhole(f[1..], sep);
      assert [f[0]] + f[1..] == f;
    }
  }

  /** Joining fields that do not contain `sep` and splitting again gives the
      same fields back. */
  lemma {:induction false} SplitJoin(fields: seq<string>, sep: char)
    requires |fields| >= 1
    requires forall i :: 0 <= i < |fields| ==> sep !in fields[i]
    ensures Split(Join(fields, sep), sep) == fields
    decreases |fields|
  {
    if |fields| == 1 {
      SplitWhole(fields[0], sep);
    } else {
      SplitJoin(fields[1..], sep);
      SplitField(fields[0], Join(fields[1..], sep), sep);
      assert [fields[0]] + fields[1..] == fields;
    }
  }

  // ---------------------------------------------------------------------
  // parseInt

  /** WhiteSpace and LineTerminator code points (sections 12.2 and 12.3 of
      ECMA-262), which `parseInt` skips before the number. */
  predicate IsJsSpace(c: char) {
    || c == '\t' || c == '\n' || c == '\U{000B}' || c == '\U{000C}' || c == '\r'
    || c == ' ' || c == '\U{00A0}' || c == '\U{1680}'
    || ('\U{2000}' <= c <= '\U{200A}')
    || c == '\U{2028}' || c == '\U{2029}' || c == '\U{202F}' || c == '\U{205F}'
    || c == '\U{3000}' || c == '\U{FEFF}'
  }

  /** The input with its leading white space removed. */
  function TrimStart(s: string): (r: string)
    ensures |r| <= |s| && r == s[|s| - |r|..]
    ensures |r| == 0 || !IsJsSpace(r[0])
    ensures forall i :: 0 <= i < |s| - |r| ==> IsJsSpace(s[i])
    decreases |s|
  {
    if |s| > 0 && IsJsSpace(s[0]) then TrimStart(s[1..]) else s
  }

  /** The value of `c` as a digit in bases up to 36 (`0`-`9`, then `a`-`z`
      or `A`-`Z`); 36 for every other character. */
  function DigitValue(c: char): (v: nat)
    ensures v <= 36
  {
    if '0' <= c <= '9' then c as int - '0' as int
    else if 'a' <= c <= 'z' then c as int - 'a' as int + 10
    else if 'A' <= c <= 'Z' then c as int - 'A' as int + 10
    else 36
  }

  /** The longest prefix of `s` made of digits of base `radix`. */
  function DigitPrefix(s: string, radix: nat): (z: string)
    ensures |z| <= |s| && z == s[..|z|]
    ensures forall i :: 0 <= i < |z| ==> DigitValue(z[i]) < radix
    ensures |z| == |s| || DigitValue(s[|z|]) >= radix
    decreases |s|
  {
    if |s| > 0 && DigitValue(s[0]) < radix then [s[0]] + DigitPrefix(s[1..], radix) else []
  }

  /** The number a digit string denotes in base `radix`, most significant
      digit first. */
  function Value(z: string, radix: nat): nat
    decreases |z|
  {
    if |z| == 0 then 0
    else Value(z[..|z| - 1], radix) * radix + DigitValue(z[|z| - 1])
  }

  /** `parseInt(s)`: skip white space, take an optional sign, then read an
      unsigned number. `NaN` is `None`; `-0` is `0`, as `===` treats them. */
  function ParseInt(s: string): (r: Option<int>)
    ensures |TrimStart(s)| == 0 ==> r == None
    ensures r.Some? ==> var t := TrimStart(s);
      || DigitValue(t[0]) < 10
      || ((t[0] == '-' || t[0] == '+') && |t| > 1 && DigitValue(t[1]) < 10)
    ensures r.Some? ==> (r.value < 0 ==> TrimStart(s)[0] == '-')
    ensures r.Some? && TrimStart(s)[0] == '-' ==> r.value <= 0
  {
    ParseSigned(TrimStart(s))
  }

  /** An optional `-` or `+` followed by an unsigned number. */
  function ParseSigned(t: string): (r: Option<int>)
    ensures |t| == 0 ==> r == None
    ensures r.Some? ==>
      || DigitValue(t[0]) < 10
      || ((t[0] == '-' || t[0] == '+') && |t| > 1 && DigitValue(t[1]) < 10)
    ensures r.Some? ==> (r.value < 0 ==> t[0] == '-')
    ensures r.Some? && t[0] == '-' ==> r.value <= 0
  {
    if |t| > 0 && t[0] == '-' then
      match ParseUnsigned(t[1..])
      case Some(n) => Some(-n)
      case None => None
    else if |t| > 0 && t[0] == '+' then ParseUnsigned(t[1..])
    else ParseUnsigned(t)
  }

  /** Base 16 after a `0x` or `0X` prefix, base 10 otherwise. */
  function ParseUnsigned(u: string): (r: Option<int>)
    ensures r.Some? ==> |u| > 0 && DigitValue(u[0]) < 10 && r.value >= 0
  {
    if |u| >= 2 && u[0] == '0' && (u[1] == 'x' || u[1] == 'X') then ParseDigits(u[2..], 16)
    else ParseDigits(u, 10)
  }

  /** The longest run of base-`radix` digits at the front of `v`; `None` when
      there is not even one digit. */
  function ParseDigits(v: string, radix: nat): (r: Option<int>)
    ensures r.Some? ==> |v| > 0 && DigitValue(v[0]) < radix && r.value >= 0
  {
    var z := DigitPrefix(v, radix);
    if |z| == 0 then None else Some(Value(z, radix))
  }

  /** The decimal digit character for `d`. */
  function DigitChar(d: nat): (c: char)
    requires d < 10
    ensures DigitValue(c) == d
  {
    ['0', '1', '2', '3', '4', '5', '6', '7', '8', '9'][d]
  }

  /** `n` written in decimal, most significant digit first, no padding. */
  function Decimal(n: nat): (z: string)
    ensures |z| >= 1
    ensures forall i :: 0 <= i < |z| ==> DigitValue(z[i]) < 10
    decreases n
  {
    if n < 10 then [DigitChar(n)] else Decimal(n / 10) + [DigitChar(n % 10)]
  }

  /** Printing in decimal and reading the digits back gives the number. */
  lemma {:induction false} DecimalValue(n: nat)
    ensures Value(Decimal(n), 10) == n
    decreases n
  {
    if n >= 10 {
      DecimalValue(n / 10);
      var z := Decimal(n);
      assert z[..|z| - 1] == Decimal(n / 10);
    }
  }

  /** The digit prefix of a digit string followed by a non-digit is that
      digit string. */
  lemma {:induction false} DigitPrefixOf(z: string, rest: string, radix: nat)
    requires forall i :: 0 <= i < |z| ==> DigitValue(z[i]) < radix
    requires |rest| == 0 || DigitValue(rest[0]) >= radix
    ensures DigitPrefix(z + rest, radix) == z
    decreases |z|
  {
    if |z| == 0 {
      assert z + rest == rest;
    } else {
      assert (z + rest)[1..] == z[1..] + rest;
      DigitPrefixOf(z[1..], rest, radix);
      assert [z[0]] + z[1..] == z;
    }
  }

  /** `parseInt` reads a leading run of decimal digits as that number,
      whatever non-digit text follows, unless the run is a lone `0` that
      the text turns into a `0x` prefix. */
  lemma ParseDecimal(z: string, rest: string)
    requires |z| >= 1
    requires forall i :: 0 <= i < |z| ==> DigitValue(z[i]) < 10
    requires |rest| == 0 || DigitValue(rest[0]) >= 10
    requires |z| >= 2 || z[0] != '0' || |rest| == 0 || (rest[0] != 'x' && rest[0] != 'X')
    ensures ParseInt(z + rest) == Some(Value(z, 10))
  {
    var s := z + rest;
    assert s[0] == z[0];
    TrimStartAtDigit(s);
    SignAtDigit(s);
    if |s| >= 2 {
      if |z| >= 2 {
        assert s[1] == z[1];
      } else {
        assert s[1] == rest[0];
      }
    }
    UnsignedDecimal(s);
    DigitPrefixOf(z, rest, 10);
  }

  /** A string starting with a decimal digit has no white space to trim. */
  lemma TrimStartAtDigit(s: string)
    requires |s| >= 1 && DigitValue(s[0]) < 10
    ensures TrimStart(s) == s
  {
    DecimalDigitIsPlain(s[0]);
  }

  /** A string starting with a decimal digit carries no sign. */
  lemma SignAtDigit(s: string)
    requires |s| >= 1 && DigitValue(s[0]) < 10
    ensures ParseSigned(s) == ParseUnsigned(s)
  {
    DecimalDigitIsPlain(s[0]);
  }

  /** Without a `0x` or `0X` prefix the number is read in base 10. */
  lemma UnsignedDecimal(s: string)
    requires |s| >= 2 ==> s[0] != '0' || (s[1] != 'x' && s[1] != 'X')
    ensures ParseUnsigned(s) == ParseDigits(s, 10)
  {
  }

  /** A decimal digit is neither white space nor a sign. */
  lemma DecimalDigitIsPlain(c: char)
    requires DigitValue(c) < 10
    ensures !IsJsSpace(c) && c != '-' && c != '+'
  {
    assert '0' <= c <= '9';
  }

  /** Decimal printing and `parseInt` are inverse on the naturals. */
  lemma ParseDecimalRoundTrip(n: nat)
    ensures ParseInt(Decimal(n)) == Some(n)
  {
    var z := Decimal(n);
    assert z + [] == z;
    ParseDecimal(z, []);
    DecimalValue(n);
  }

  /** Leading white space does not change what `parseInt` reads. */
  lemma ParseIntSkipsSpace(w: string, s: string)
    requires forall i :: 0 <= i < |w| ==> IsJsSpace(w[i])
    ensures ParseInt(w + s) == ParseInt(s)
  {
    TrimStartSkips(w, s);
  }

  /** Trimming skips a leading run of white space and then trims what
      follows. */
  lemma {:induction false} TrimStartSkips(w: string, s: string)
    requires forall i :: 0 <= i < |w| ==> IsJsSpace(w[i])
    ensures TrimStart(w + s) == TrimStart(s)
    decreases |w|
  {
    if |w| > 0 {
      assert (w + s)[1..] == w[1..] + s;
      TrimStartSkips(w[1..], s);
    } else {
      assert w + s == s;
    }
  }
}

=== FILE: scheduler.dfy ===
/** The scheduler component as a state machine: one immutable state record
    and one pure function per user action, plus the list the component
    shows. Rendering, storage and the id generator are outside the model:
    the events read back from storage and each new id are parameters. */
module Scheduler {
  import opened Wrappers
  import opened Events
  import opened Calendar

  /** The component's six pieces of state. `editing` is the event whose
      Edit button opened the form (`null` is `None`); `title` and `date`
      are the form's draft fields. */
  datatype State = State(
    events: seq<Event>,
    selected: Selection,
    showForm: bool,
    editing: Option<Event>,
    title: string,
    date: string)

  /** The state once the mount effect has loaded `stored` from storage. */
  function Mounted(stored: seq<Event>): (s: State)
    ensures Visible(s) == stored
    ensures s.selected == NoDay && !s.showForm && s.editing == None && s.title == "" && s.date == ""
  {
    State(stored, NoDay, false, None, "", "")
  }

  /** JavaScript truthiness of the selected day: the empty string and the
      number 0 are falsy, every other number is truthy. */
  predicate IsTruthy(selected: Selection)
    ensures IsTruthy(selected) <==> selected != NoDay && selected != Day(0)
  {
    selected.Day? && selected.day != 0
  }

  // ---------------------------------------------------------------------
  // the shown list

  /** `filteredEvents`: every event while no day is selected, otherwise the
      events whose date falls on the selected day, in stored order. */
  function Visible(s: State): (r: seq<Event>)
    ensures !IsTruthy(s.selected) ==> r == s.events
    ensures IsTruthy(s.selected) ==>
      forall i :: 0 <= i < |r| ==> DayOfMonth(r[i].date) == Some(s.selected.day) && r[i] in s.events
    ensures IsTruthy(s.selected) ==>
      forall i :: 0 <= i < |s.events| && DayOfMonth(s.events[i].date) == Some(s.selected.day) ==> s.events[i] in r
    ensures |r| <= |s.events|
  {
    if IsTruthy(s.selected) then OnDay(s.events, s.selected.day) else s.events
  }

  // ---------------------------------------------------------------------
  // transitions

  /** The save handler (form submit). With an empty title or date it only
      alerts, and nothing changes. Otherwise, with an edit target it
      rewrites title and date of the events carrying the target's id, and
      without one it appends a new event under `freshId`, the id the
      generator returned; either way it then clears the target and the
      drafts and hides the form. */
  function Save(s: State, freshId: Id): (r: State)
    ensures s.title == "" || s.date == "" ==> r == s
    ensures s.title != "" && s.date != "" ==>
      && r.editing == None && r.title == "" && r.date == "" && !r.showForm
      && r.selected == s.selected
    ensures s.title != "" && s.date != "" && s.editing == None ==>
      && |r.events| == |s.events| + 1
      && r.events[..|s.events|] == s.events
      && r.events[|s.events|] == Event(freshId, s.title, s.date)
    ensures s.title != "" && s.date != "" && s.editing.Some? ==>
      && |r.events| == |s.events|
      && Ids(r.events) == Ids(s.events)
      && (forall i :: 0 <= i < |s.events| && s.events[i].id == s.editing.value.id ==>
            r.events[i] == Event(s.events[i].id, s.title, s.date))
      && (forall i :: 0 <= i < |s.events| && s.events[i].id != s.editing.value.id ==>
            r.events[i] == s.events[i])
  {
    if s.title == "" || s.date == "" then s
    else
      var events :=
        if s.editing.Some? then
          ReviseKeepsIds(s.events, s.editing.value.id, s.title, s.date);
          ReviseById(s.events, s.editing.value.id, s.title, s.date)
        else s.events + [Event(freshId, s.title, s.date)];
      State(events, s.selected, false, None, "", "")
  }

  /** The Edit button of `ev`: make it the target, copy its title and date
      into the drafts and open the form. */
  function Edit(s: State, ev: Event): (r: State)
    ensures r.events == s.events && r.selected == s.selected
    ensures r.showForm && r.editing == Some(ev) && r.title == ev.title && r.date == ev.date
  {
    s.(editing := Some(ev), title := ev.title, date := ev.date, showForm := true)
  }

  /** The Delete button: drop every event with id `id`. The form, its
      target and the drafts are left alone. */
  function Delete(s: State, id: Id): (r: State)
    ensures r.events == RemoveById(s.events, id)
    ensures r.(events := s.events) == s
  {
    s.(events := RemoveById(s.events, id))
  }

  /** The Add Event button: open an empty form with no edit target. */
  function OpenAdd(s: State): (r: State)
    ensures r.events == s.events && r.selected == s.selected
    ensures r.showForm && r.editing == None && r.title == "" && r.date == ""
  {
    s.(showForm := true, editing := None, title := "", date := "")
  }

  /** The Cancel button: hide the form. The edit target and the drafts are
      kept, so reopening through Edit or Add Event overwrites them. */
  function Cancel(s: State): (r: State)
    ensures !r.showForm
    ensures r.(showForm := s.showForm) == s
  {
    s.(showForm := false)
  }

  /** A click on a day button selects that day. No action deselects. */
  function SelectDay(s: State, day: int): (r: State)
    ensures r.selected == Day(day)
    ensures r.(selected := s.selected) == s
  {
    s.(selected := Day(day))
  }

  /** Typing into the title input. */
  function TypeTitle(s: State, text: string): (r: State)
    ensures r.title == text
    ensures r.(title := s.title) == s
  {
    s.(title := text)
  }

  /** Picking a value in the date input. */
  function PickDate(s: State, text: string): (r: State)
    ensures r.date == text
    ensures r.(date := s.date) == s
  {
    s.(date := text)
  }

  // ---------------------------------------------------------------------
  // properties of single transitions

  /** Saving a new event with an unused id keeps ids distinct and puts the
      new event at the end of the list; it shows up in the shown list
      exactly when its date falls on the selected day. */
  lemma SaveNew(s: State, freshId: Id)
    requires s.title != "" && s.date != "" && s.editing == None
    requires DistinctIds(s.events) && freshId !in Ids(s.events)
    ensures DistinctIds(Save(s, freshId).events)
    ensures freshId in Ids(Save(s, freshId).events)
    ensures Visible(Save(s, freshId)) ==
      Visible(s) + (if !IsTruthy(s.selected) || DayOfMonth(s.date) == Some(s.selected.day)
                    then [Event(freshId, s.title, s.date)] else [])
  {
    var r := Save(s, freshId);
    var e := Event(freshId, s.title, s.date);
    assert r.events == s.events + [e];
    forall i | 0 <= i < |s.events| ensures s.events[i].id != freshId {
      assert Ids(s.events)[i] == s.events[i].id;
    }
    assert Ids(r.events)[|s.events|] == freshId;
    if IsTruthy(s.selected) {
      OnDayPieces(s.events, [e], e, s.selected.day);
    }
  }

  /** Saving an edit whose target is no longer stored (it was deleted while
      the form was open) leaves the events as they were but still resets
      the form. */
  lemma SaveStaleTarget(s: State, freshId: Id)
    requires s.title != "" && s.date != "" && s.editing.Some?
    requires s.editing.value.id !in Ids(s.events)
    ensures Save(s, freshId).events == s.events
    ensures !Save(s, freshId).showForm && Save(s, freshId).editing == None
  {
    ReviseKeepsIds(s.events, s.editing.value.id, s.title, s.date);
  }

  /** Opening a stored event for editing and saving it without changing
      the drafts leaves the events as they were, provided ids are distinct. */
  lemma EditThenSaveUnchanged(s: State, k: nat, freshId: Id)
    requires DistinctIds(s.events) && k < |s.events|
    ensures Save(Edit(s, s.events[k]), freshId).events == s.events
  {
    var ev := s.events[k];
    if ev.title != "" && ev.date != "" {
      ReviseOne(s.events, k, ev.title, ev.date);
      assert s.events[k := Event(ev.id, ev.title, ev.date)] == s.events;
    }
  }

  /** Add Event, Edit and Cancel never touch the events or the shown list.
      Cancel keeps the edit target and the drafts, but whatever it leaves
      behind is overwritten by the next Add Event or Edit. */
  lemma FormButtonsKeepEvents(s: State, ev: Event)
    ensures OpenAdd(s).events == s.events && Cancel(s).events == s.events
    ensures Edit(s, ev).events == s.events
    ensures Visible(OpenAdd(s)) == Visible(s) && Visible(Cancel(s)) == Visible(s)
    ensures Visible(Edit(s, ev)) == Visible(s)
    ensures Cancel(Edit(s, ev)).editing == Some(ev)
    ensures Cancel(Edit(s, ev)).title == ev.title && Cancel(Edit(s, ev)).date == ev.date
    ensures OpenAdd(Cancel(s)) == OpenAdd(s) && Edit(Cancel(s), ev) == Edit(s, ev)
  {
  }

  /** Deleting from the stored list and then showing is the same as
      deleting from the shown list. */
  lemma DeleteThenShow(s: State, id: Id)
    ensures Visible(Delete(s, id)) == RemoveById(Visible(s), id)
  {
    if IsTruthy(s.selected) {
      RemoveOnDayCommute(s.events, id, s.selected.day);
    }
  }

  // ---------------------------------------------------------------------
  // runs of user actions

  /** The user actions the component responds to. */
  datatype Action =
    | ClickDay(day: int)
    | ClickAdd
    | ClickEdit(ev: Event)
    | ClickDelete(id: Id)
    | ClickCancel
    | Submit(freshId: Id)
    | TypeTitleText(text: string)
    | PickDateText(text: string)

  /** The state after one action. Only Delete and Submit write the event
      list, and only a day click writes the selection. */
  function Step(s: State, a: Action): (r: State)
    ensures !(a.ClickDelete? || a.Submit?) ==> r.events == s.events
    ensures !a.ClickDay? ==> r.selected == s.selected
    ensures a.ClickDelete? ==> |r.events| <= |s.events|
    ensures a.Submit? ==> |s.events| <= |r.events| <= |s.events| + 1
  {
    match a
    case ClickDay(day) => SelectDay(s, day)
    case ClickAdd => OpenAdd(s)
    case ClickEdit(ev) => Edit(s, ev)
    case ClickDelete(id) => Delete(s, id)
    case ClickCancel => Cancel(s)
    case Submit(freshId) => Save(s, freshId)
    case TypeTitleText(text) => TypeTitle(s, text)
    case PickDateText(text) => PickDate(s, text)
  }

  /** Whether the control for `a` is on screen: day buttons for the days of
      the month, Edit and Delete on shown events, and the form's inputs and
      buttons only while the form is open. A clickable day lies in 1..N,
      and Edit and Delete only ever name a stored event. */
  predicate Enabled(s: State, a: Action, year: int, month: int)
    requires 0 <= month < 12
    ensures Enabled(s, a, year, month) && a.ClickDay? ==> 1 <= a.day <= MonthLength(year, month)
    ensures Enabled(s, a, year, month) && a.ClickEdit? ==> a.ev in s.events
    ensures Enabled(s, a, year, month) && a.ClickDelete? ==> a.id in Ids(s.events)
    ensures Enabled(s, a, year, month) && (a.Submit? || a.ClickCancel?) ==> s.showForm
  {
    DaysInMonthShape(year, month);
    VisibleIdsStored(s);
    match a
    case ClickDay(day) => day in DaysInMonth(year, month)
    case ClickAdd => true
    case ClickEdit(ev) => ev in Visible(s)
    case ClickDelete(id) => id in Ids(Visible(s))
    case ClickCancel => s.showForm
    case Submit(_) => s.showForm
    case TypeTitleText(_) => s.showForm
    case PickDateText(_) => s.showForm
  }

  /** Every id on the shown list is the id of a stored event. */
  lemma VisibleIdsStored(s: State)
    ensures forall id :: id in Ids(Visible(s)) ==> id in Ids(s.events)
  {
    forall id | id in Ids(Visible(s)) ensures id in Ids(s.events) {
      var v := Visible(s);
      var i :| 0 <= i < |v| && Ids(v)[i] == id;
      var j :| 0 <= j < |s.events| && s.events[j] == v[i];
      assert Ids(s.events)[j] == id;
    }
  }

  /** The state after a sequence of actions. */
  function Run(s: State, actions: seq<Action>): State
    decreases |actions|
  {
    if |actions| == 0 then s else Run(Step(s, actions[0]), actions[1..])
  }

  /** Every action of the run is enabled when it happens, and every id the
      generator hands to a save is not yet stored. */
  predicate Admissible(s: State, actions: seq<Action>, year: int, month: int)
    requires 0 <= month < 12
    decreases |actions|
  {
    |actions| == 0 ||
    (&& Enabled(s, actions[0], year, month)
     && (actions[0].Submit? ==> actions[0].freshId !in Ids(s.events))
     && Admissible(Step(s, actions[0]), actions[1..], year, month))
  }

  /** No action clears the selection: once a day is selected, some day
      stays selected for the rest of the run. */
  lemma {:induction false} SelectionSticks(s: State, actions: seq<Action>)
    requires s.selected.Day?
    ensures Run(s, actions).selected.Day?
    decreases |actions|
  {
    if |actions| > 0 {
      SelectionSticks(Step(s, actions[0]), actions[1..]);
    }
  }

  /** A selected day is a day number from 1 up. */
  predicate SelectionValid(s: State) {
    s.selected.Day? ==> s.selected.day >= 1
  }

  /** What holds of every state the component reaches from valid stored
      events: ids are distinct, every stored event has a title and a date,
      and the selection is valid. */
  predicate Inv(s: State) {
    && DistinctIds(s.events)
    && AllComplete(s.events)
    && SelectionValid(s)
  }

  /** With a valid selection, a day is selected exactly when the selection
      is truthy, so the shown list is the day filter whenever a day is
      chosen. */
  lemma SelectedIsTruthy(s: State)
    requires SelectionValid(s)
    ensures IsTruthy(s.selected) <==> s.selected.Day?
    ensures s.selected.Day? ==> Visible(s) == OnDay(s.events, s.selected.day)
  {
  }

  /** Every admissible run keeps the selection valid, whatever the events. */
  lemma {:induction false} RunKeepsSelection(s: State, actions: seq<Action>, year: int, month: int)
    requires 0 <= month < 12
    requires SelectionValid(s) && Admissible(s, actions, year, month)
    ensures SelectionValid(Run(s, actions))
    decreases |actions|
  {
    if |actions| > 0 {
      DaysInMonthShape(year, month);
      RunKeepsSelection(Step(s, actions[0]), actions[1..], year, month);
    }
  }

  /** In every state an admissible run reaches after mounting any stored
      events, valid or not, a day is selected exactly when the selection is
      truthy, and the shown list is then the day filter. */
  lemma MountedRunTruthy(stored: seq<Event>, actions: seq<Action>, year: int, month: int)
    requires 0 <= month < 12
    requires Admissible(Mounted(stored), actions, year, month)
    ensures var r := Run(Mounted(stored), actions);
      && (IsTruthy(r.selected) <==> r.selected.Day?)
      && (r.selected.Day? ==> Visible(r) == OnDay(r.events, r.selected.day))
  {
    RunKeepsSelection(Mounted(stored), actions, year, month);
    SelectedIsTruthy(Run(Mounted(stored), actions));
  }

  /** The mounted state satisfies the invariant exactly when the stored
      events do. */
  lemma MountedInv(stored: seq<Event>)
    ensures Inv(Mounted(stored)) <==> DistinctIds(stored) && AllComplete(stored)
  {
  }

  /** Deleting keeps the invariant. */
  lemma DeleteKeepsInv(s: State, id: Id)
    requires Inv(s)
    ensures Inv(Delete(s, id))
  {
    var r := RemoveById(s.events, id);
    forall i | 0 <= i < |r| ensures Complete(r[i]) {
      var j :| 0 <= j < |s.events| && s.events[j] == r[i];
    }
  }

  /** Saving keeps the invariant when the generator's id is not yet stored. */
  lemma SaveKeepsInv(s: State, freshId: Id)
    requires Inv(s) && freshId !in Ids(s.events)
    ensures Inv(Save(s, freshId))
  {
    if s.title != "" && s.date != "" {
      if s.editing == None {
        SaveNew(s, freshId);
      } else {
        ReviseKeepsIds(s.events, s.editing.value.id, s.title, s.date);
      }
    }
  }

  /** Each enabled action with a fresh id keeps the invariant. */
  lemma StepKeepsInv(s: State, a: Action, year: int, month: int)
    requires 0 <= month < 12
    requires Inv(s) && Enabled(s, a, year, month)
    requires a.Submit? ==> a.freshId !in Ids(s.events)
    ensures Inv(Step(s, a))
  {
    match a
    case ClickDay(day) =>
      DaysInMonthShape(year, month);
    case ClickDelete(id) =>
      DeleteKeepsInv(s, id);
    case Submit(freshId) =>
      SaveKeepsInv(s, freshId);
    case _ =>
  }

  /** Every state reached by an admissible run from a state satisfying the
      invariant satisfies it too. */
  lemma {:induction false} RunKeepsInv(s: State, actions: seq<Action>, year: int, month: int)
    requires 0 <= month < 12
    requires Inv(s) && Admissible(s, actions, year, month)
    ensures Inv(Run(s, actions))
    decreases |actions|
  {
    if |actions| > 0 {
      StepKeepsInv(s, actions[0], year, month);
      RunKeepsInv(Step(s, actions[0]), actions[1..], year, month);
    }
  }

  // ---------------------------------------------------------------------
  // a worked session

  /** Running one sequence of actions and then another is running their
      concatenation. */
  lemma {:induction false} RunAppend(s: State, a: seq<Action>, b: seq<Action>)
    ensures Run(s, a + b) == Run(Run(s, a), b)
    decreases |a|
  {
    if |a| == 0 {
      assert a + b == b;
    } else {
      assert (a + b)[1..] == a[1..] + b;
      RunAppend(Step(s, a[0]), a[1..], b);
    }
  }

  /** The clicks and keystrokes that add one event. */
  function AddClicks(title: string, date: string, freshId: Id): seq<Action> {
    [ClickAdd, TypeTitleText(title), PickDateText(date), Submit(freshId)]
  }

  /** Adding through the form appends the event and leaves the form closed
      and empty, the selection untouched. */
  lemma AddThroughForm(s: State, title: string, date: string, freshId: Id)
    requires title != "" && date != ""
    ensures Run(s, AddClicks(title, date, freshId)) ==
      State(s.events + [Event(freshId, title, date)], s.selected, false, None, "", "")
  {
    var a := AddClicks(title, date, freshId);
    var s1 := OpenAdd(s);
    var s2 := TypeTitle(s1, title);
    var s3 := PickDate(s2, date);
    assert a[0] == ClickAdd && Step(s, a[0]) == s1;
    assert a[1..][0] == TypeTitleText(title) && Step(s1, a[1..][0]) == s2;
    assert a[1..][1..] == a[2..];
    assert a[2..][0] == PickDateText(date) && Step(s2, a[2..][0]) == s3;
    assert a[2..][1..] == a[3..] == [Submit(freshId)];
    assert Run(s3, a[3..]) == Step(s3, Submit(freshId)) == Save(s3, freshId);
    assert Run(s2, a[2..]) == Run(s3, a[3..]);
    assert Run(s1, a[1..]) == Run(s2, a[2..]);
    assert Run(s, a) == Run(s1, a[1..]);
  }

  /** The date "2024-06-05" falls on day 5. */
  lemma DayOfJune5()
    ensures DayOfMonth("2024-06-05") == Some(5)
  {
    var fields := ["2024", "06", "05"];
    assert JsText.Join(fields, '-') == "2024-06-05";
    JsText.SplitJoin(fields, '-');
    assert TwoDigits(5) == "05";
    ParseTwoDigits(5);
  }

  /** From an empty store, adding "Standup" and then "Review", both dated
      the 5th of June 2024, stores both in that order and leaves nothing
      selected and the form closed and empty. */
  lemma TwoAdds(id1: Id, id2: Id)
    ensures var s := Run(Mounted([]),
        AddClicks("Standup", "2024-06-05", id1) + AddClicks("Review", "2024-06-05", id2));
      s == State([Event(id1, "Standup", "2024-06-05"), Event(id2, "Review", "2024-06-05")],
                 NoDay, false, None, "", "")
  {
    var june5 := "2024-06-05";
    var s0 := Mounted([]);
    RunAppend(s0, AddClicks("Standup", june5, id1), AddClicks("Review", june5, id2));
    AddThroughForm(s0, "Standup", june5, id1);
    var s1 := Run(s0, AddClicks("Standup", june5, id1));
    AddThroughForm(s1, "Review", june5, id2);
    assert [] + [Event(id1, "Standup", june5)] == [Event(id1, "Standup", june5)];
  }

  /** The state `TwoAdds` reaches satisfies the invariant; both events are
      shown while no day is selected and when the 5th is selected, in the
      order they were added, and none is shown once the 6th is selected.
      The lemma holds for any date on the 5th; `DayOfJune5` shows that
      "2024-06-05" is one. Keeping the literal out of this contract spares
      the verifier from evaluating `split` and `parseInt` on it inside a
      large goal. */
  lemma TwoEventsOnOneDay(id1: Id, id2: Id, june5: string)
    requires id1 != id2 && DayOfMonth(june5) == Some(5)
    ensures var e1 := Event(id1, "Standup", june5);
      var e2 := Event(id2, "Review", june5);
      var s := State([e1, e2], NoDay, false, None, "", "");
      && Inv(s)
      && Visible(s) == [e1, e2]
      && Visible(SelectDay(s, 5)) == [e1, e2]
      && Visible(SelectDay(SelectDay(s, 5), 6)) == []
  {
    SameDayPair(Event(id1, "Standup", june5), Event(id2, "Review", june5));
  }

  /** Two events whose dates both fall on the 5th are both kept by the
      filter for day 5, in order, and both dropped by the filter for day 6. */
  lemma SameDayPair(e1: Event, e2: Event)
    requires DayOfMonth(e1.date) == Some(5) && DayOfMonth(e2.date) == Some(5)
    ensures OnDay([e1, e2], 5) == [e1, e2]
    ensures OnDay([e1, e2], 6) == []
  {
    assert [e1] + [e2] == [e1, e2];
    OnDayPieces([e1], [e2], e1, 5);
    OnDayPieces([e1], [e2], e2, 5);
    OnDayPieces([e1], [e2], e1, 6);
  }
}

=== FILE: seqs.dfy ===
/** Order-preserving selection on sequences: the model of JavaScript's
    `Array.prototype.filter`, which the scheduler uses both to delete an
    event and to compute the list shown for a selected day. */
module Seqs {

  /** The elements of `s` that satisfy `p`, in their original order. */
  function Filter<T>(s: seq<T>, p: T -> bool): (r: seq<T>)
    ensures |r| <= |s|
    ensures forall i :: 0 <= i < |r| ==> p(r[i]) && r[i] in s
    ensures forall i :: 0 <= i < |s| && p(s[i]) ==> s[i] in r
    ensures multiset(r) <= multiset(s)
    decreases |s|
  {
    if |s| == 0 then []
    else
      assert s == [s[0]] + s[1..];
      if p(s[0]) then [s[0]] + Filter(s[1..], p) else Filter(s[1..], p)
  }

  /** Filtering is order preserving: it distributes over concatenation. */
  lemma {:induction false} FilterAppend<T>(a: seq<T>, b: seq<T>, p: T -> bool)
    ensures Filter(a + b, p) == Filter(a, p) + Filter(b, p)
    decreases |a|
  {
    if |a| == 0 {
      assert a + b == b;
    } else {
      assert (a + b)[1..] == a[1..] + b;
      FilterAppend(a[1..], b, p);
    }
  }

  /** A one-element sequence is kept exactly when its element satisfies `p`;
      together with `FilterAppend` this determines `Filter` completely. */
  lemma FilterSingleton<T>(x: T, p: T -> bool)
    ensures Filter([x], p) == if p(x) then [x] else []
  {
    assert [x][1..] == [];
  }

  /** When every element satisfies `p`, nothing is removed. */
  lemma {:induction false} FilterKeepsAll<T>(s: seq<T>, p: T -> bool)
    requires forall i :: 0 <= i < |s| ==> p(s[i])
    ensures Filter(s, p) == s
    decreases |s|
  {
    if |s| > 0 {
      FilterKeepsAll(s[1..], p);
    }
  }

  /** Filtering twice with the same predicate is filtering once. */
  lemma FilterIdempotent<T>(s: seq<T>, p: T -> bool)
    ensures Filter(Filter(s, p), p) == Filter(s, p)
  {
    var r := Filter(s, p);
    forall i | 0 <= i < |r|
      ensures p(r[i])
    {
      assert r[i] in r;
    }
    FilterKeepsAll(r, p);
  }

  /** The result is as long as the input if and only if every element
      satisfies `p`. */
  lemma {:induction false} FilterShorter<T>(s: seq<T>, p: T -> bool)
    ensures |Filter(s, p)| == |s| <==> forall i :: 0 <= i < |s| ==> p(s[i])
    decreases |s|
  {
    if |s| > 0 {
      var rest := s[1..];
      FilterShorter(rest, p);
      if forall i :: 0 <= i < |s| ==> p(s[i]) {
        FilterKeepsAll(s, p);
      } else if p(s[0]) {
        var i :| 0 <= i < |s| && !p(s[i]);
        assert !p(rest[i - 1]);
      }
    }
  }

  /** Two filters can be applied in either order. */
  lemma {:induction false} FilterCommute<T>(s: seq<T>, p: T -> bool, q: T -> bool)
    ensures Filter(Filter(s, p), q) == Filter(Filter(s, q), p)
    decreases |s|
  {
    if |s| > 0 {
      FilterCommute(s[1..], p, q);
      var x := s[0];
      assert [x] + s[1..] == s;
      FilterAppend([x], s[1..], p);
      FilterAppend([x], s[1..], q);
      FilterSingleton(x, p);
      FilterSingleton(x, q);
      FilterAppend(Filter([x], p), Filter(s[1..], p), q);
      FilterAppend(Filter([x], q), Filter(s[1..], q), p);
      assert Filter([], p) == [] && Filter([], q) == [];
    }
  }
}

=== FILE: wrappers.dfy ===
/** The optional-value datatype shared by the scheduler modules. `None`
    stands for JavaScript's `null` (no edit target) and for `NaN` (a day
    field that does not parse as an integer). */
module Wrappers {

  datatype Option<+T> = None | Some(value: T)
}
